=== FILE: README.md ===
# Alpha Arena trading bot: decision-to-order core

A Dafny model of the part of the trading bot that turns a language model's
reply into exchange requests. Every step is a pure function. Where the bot
calls Binance, OpenRouter or Telegram, the model records the request in an
*effects trace* instead: leverage changes, orders and operator notifications.
What the exchange answers is an input, the `Env` record. It holds the raw
account, ticker prices, position amounts per symbol, and the set of requests
the exchange refuses (a refused request makes the call raise, as the client
does).

Modules, following the program's structure:

- `Reply`: the cleaning applied to the model's reply before JSON decoding.
  It trims, drops an opening "```json" or "```" fence and a closing "```"
  fence, and trims again.
- `Rounding`: Python's `round(x, n)` on reals, round-half-to-even at 10^-n.
- `Account`: the account `Snapshot` built by `get_account_info`.
- `Breaker`: the daily-loss check.
- `Prompt`: the structure of the prompt `build_prompt` composes.
- `Json`, `Orders`, `Config`, `Wrappers`: decoded JSON values and Python
  truthiness, the request and order types, the bot's constants, and Option.
- `Execution`: `execute_trade`, `_set_tp_sl`, `_round_quantity` and `_round_price`.
- `ExecutionFacts`: properties that relate several steps of `execute_trade`.
- `Cycle`: one iteration of `run`, the decision step of `query_deepseek`,
  and batch dispatch.
- `Modes`: the mode table of `prompts.py` and its lookups.

The model follows the code as written. Notable behaviour of the code:

- `execute_trade` has no confidence floor. `ConfidenceIgnored` proves the
  confidence field changes nothing.
- It has no position-count cap and no symbol-universe check.
- It does not clamp leverage. `LeverageNotClamped` shows the decision's
  leverage reaches the exchange unchanged.
- The cash buffer is applied in the sizing formula, not checked as a separate
  gate.
- A CLOSE with no open position returns False.
- An entry without a numeric take-profit and stop-loss sends its market order
  and then reports False, because formatting the notification raises
  (`EntryWithoutTargetFails`).
- `trade_history` is never appended to, so no ledger is modelled.
- The trend label shown for a pair is decided on the unrounded averages,
  while the averages are shown rounded, so the two can disagree
  (`TrendBeforeRounding`).
- An iteration in which every pair's market data failed is not retried: the
  model is asked with an empty market section (`AllPairsFailedStillRuns`).

## Model

| member | source | states |
|---|---|---|
| Reply.Strip | main.py:274 | The result has no whitespace at either end. It is the input with only whitespace taken off the two ends. |
| Reply.StripPadded | main.py:274 | A trimmed text framed by whitespace strips back to exactly itself, including the empty text. |
| Reply.CleanReply | main.py:274-281 | The cleaned reply is trimmed and never longer than the reply. |
| Reply.CleanUnfenced | main.py:274-281 | A bare JSON object or array is only trimmed by cleaning. |
| Reply.CleanJsonFenced | main.py:274-281 | A reply fenced as "```json … ```", with any whitespace around it, cleans to the trimmed payload. |
| Reply.CleanPlainFenced | main.py:277-281 | A reply fenced as "``` … ```" cleans to the trimmed payload. |
| Reply.FencedLikeUnfenced | main.py:274-281 | Fenced and bare JSON payloads clean to the same text. |
| Rounding.RoundHalfEven | main.py:437 | The integer is within one half of its argument, and a tie goes to the even neighbour. |
| Rounding.RoundToError | main.py:437 | Rounding to n decimals moves a value by at most half of 10^-n. |
| Rounding.RoundToOnGrid | main.py:437 | The rounded value is a whole number of 10^-n steps: measured in steps it is the rounded step count. |
| Rounding.RoundToNonPositive | main.py:437 | A value rounds to zero or below exactly when it is at most half of 10^-n. |
| Account.ToPosition | main.py:150-157 | The side and size together give back the signed amount (LONG iff positive, size = absolute amount). A non-zero amount gives a positive size. The other fields are copied. |
| Account.OpenPositions | main.py:147-157 | There are no more entries than records, and every entry has a positive size. |
| Account.OpenPositionsExactly | main.py:147-165 | Every non-zero record appears in the snapshot, nothing else does, and the count equals the number of non-zero records. |
| Account.OpenPositionsAppend | main.py:147-157 | The records are kept in exchange order: the snapshot of two runs of records is the first run's snapshot followed by the second's. |
| Account.OpenPositionsSingle | main.py:147-157 | A single record gives its position if its amount is non-zero, else nothing; with `OpenPositionsAppend` this fixes the snapshot's order and copies. |
| Account.AccountInfo | main.py:136-170 | A snapshot exists iff the account could be read. The count equals the list length. Balance, unrealized profit and available margin are each a whole number of cents within half a cent of the exchange value. Equity is a whole number of cents within half a cent of balance plus unrealized profit. |
| Breaker.CheckDailyLoss | main.py:465-476 | The breaker trips iff an account was read and its equity is at most 95% of the 10000 starting balance. |
| Breaker.SixPercentLossTrips | main.py:465-476 | Equity 9400 trips the breaker, 9600 does not, and a missing account never does. |
| Prompt.Summarize | main.py:120-128 | The stored record keeps the price. RSI, averages and volume are within half a cent, and MACD and its signal within half of 10^-4. The pair is labelled bullish iff the unrounded fast average is above the unrounded slow one. |
| Prompt.TrendBeforeRounding | main.py:124-127 | Averages 100.004 and 100.001 are both stored as 100.00 while the pair is labelled bullish. |
| Prompt.MarketSection | main.py:211-222 | Every rendered block comes from a pair whose data is available, with no more blocks than pairs. |
| Prompt.MarketSectionExactly | main.py:211-222 | A pair is rendered iff its data is available, with its stored record. Pairs without data are omitted. |
| Prompt.MarketSectionAppend | main.py:212-222 | Pairs are rendered in order: the section of two runs of pairs is the first run's followed by the second's. |
| Prompt.MarketSectionSingle | main.py:212-222 | A single pair gives its block if it has data, else nothing; with `MarketSectionAppend` each available pair is rendered once, in pair order. |
| Prompt.NoDataNoBlocks | main.py:212-214 | When no pair has data, the market section is empty. |
| Prompt.BuildPrompt | main.py:211-243 | The market part is the market section, so pairs without data are left out (see `MarketSectionExactly`). The positions section is the single "None" line iff there are no open positions, otherwise it lists them. The account block shows the snapshot's balance, unrealized profit, equity and available margin, and the count against the fixed cap of 6. |
| Execution.Failed | main.py:384-387 | The exception path keeps every request already sent, in order, then adds one error notification, and returns False. |
| Execution.Classify | main.py:301-308 | A missing action is HOLD. Each of HOLD, OPEN_LONG, OPEN_SHORT and CLOSE gets its own branch exactly when the action is that name. The action is "other" iff it is present and none of the four. |
| Execution.SizeEntry | main.py:310-328 | A sized entry has a positive quantity, a non-zero price, the decision's symbol with a known ticker, and the decision's leverage unchanged. |
| Execution.Bracket | main.py:389-423 | At most two orders are sent. Each is reduce-only and non-market, for the entry's symbol and quantity, and on SELL iff the entry was long. |
| Execution.RoundQuantity | main.py:425-437 | The rounded quantity is a whole number of lot steps within half a step of the input, and is zero or below iff the input is at most half a step. |
| Execution.RoundPrice | main.py:439-450 | The rounded price is a whole number of tick steps within half a step of the input. |
| Execution.Place | main.py:331-356 | A sized entry always ends with a notice that matches its result, and starts with the leverage change. Success means the market entry came second and both targets are numbers. Every order is for the sized symbol and quantity: the one non-reduce-only order is the entry itself, and reduce-only orders are on the opposite side and only when both targets are truthy. |
| Execution.Enter | main.py:308-356 | The trace is empty iff the quantity rounds to zero. A non-empty trace ends with the opened notice on success and the error notice otherwise. Success means sizing passed, the trace starts with the leverage change and the market entry, and both targets are numbers. Every order is for the decision's symbol and a positive quantity. |
| Execution.FirstOpen | main.py:361-363 | The index found holds the first non-zero amount. None means all amounts are zero. |
| Execution.ClosePosition | main.py:358-380 | At most an order and a notice are sent. Nothing is sent iff the symbol is reported with all amounts zero. Success means the order was sent and the closed notice follows it. The only order is a reduce-only market order, first in the trace, for the decision's symbol and a positive quantity. |
| Execution.ExecuteTrade | main.py:298-387 | A non-object fails with one error notification. HOLD and unknown actions send nothing and return True. OPEN_LONG enters long, OPEN_SHORT enters short and CLOSE closes. Every order is for the decision's symbol and a positive quantity. |
| ExecutionFacts.MarginWithinCashBuffer | main.py:311-316 | For size_percent in [0,100] the margin is at most 70% of available, so 30% stays unused. |
| ExecutionFacts.SizingOutcome | main.py:315-328 | With usable inputs the entry is refused as zero iff margin × leverage / price is at most half a lot step. Otherwise the quantity is that target rounded, within half a step. |
| ExecutionFacts.DefaultSizing | main.py:311-321 | Without size_percent and leverage the target quantity is 0.7 × available / price (10% at 10x). |
| ExecutionFacts.ZeroQuantityRefused | main.py:308-328 | A quantity rounding to zero returns False with no leverage change, no order and no notification. A sizing step that raises sends only the failure notification. |
| ExecutionFacts.EntryOrdersMirror | main.py:331-351 | An entry's market order is BUY iff the entry is long. Every reduce-only order has the opposite side, the same quantity and the same symbol. |
| ExecutionFacts.EntrySideFollowsAction | main.py:308-351 | For an OPEN_LONG decision an order is BUY iff it is not reduce-only. For OPEN_SHORT an order is SELL iff it is not reduce-only. |
| ExecutionFacts.BracketNeedsBothTargets | main.py:347-351 | Without both take_profit and stop_loss truthy, no reduce-only order is sent. |
| ExecutionFacts.FullEntry | main.py:331-356 | With all requests accepted and numeric targets, the trace is: leverage, market entry, take-profit, stop-loss at rounded prices, notification. The result is True. |
| ExecutionFacts.EntryWithoutTargetFails | main.py:347-356 | Without take_profit the market order is sent, no bracket follows, the notification formatting fails and the result is False. |
| ExecutionFacts.LeverageNotClamped | main.py:312-334 | The decision's leverage is sent to the exchange unchanged, whatever its size. |
| ExecutionFacts.ConfidenceIgnored | main.py:298-387 | Changing the confidence field changes neither the result nor the trace. |
| ExecutionFacts.CloseOffsetsFirstOpen | main.py:358-380 | With no non-zero amount nothing is sent and the result is False. Otherwise one reduce-only market order offsets the first non-zero amount to zero (SELL iff it is positive). True iff the exchange accepts it. |
| ExecutionFacts.CloseOnlyIfOpen | main.py:358-380 | A CLOSE that sends an order had a non-zero position for the symbol. |
| Cycle.QueryDecision | main.py:269-296 | A failed request yields no decision. A completion yields the decoding of the cleaned reply. |
| Cycle.FencedReplySameDecision | main.py:274-285 | A fenced reply yields the same decision as the bare JSON. |
| Cycle.ExecuteAll | main.py:508-510 | Every element runs and has its own result. A one-element list runs exactly that element. If no element sends an order, the batch sends none. |
| Cycle.ExecuteAllAppend | main.py:508-510 | Running a concatenated list gives the first part's results and trace followed by the second part's, so the batch trace is the element traces in list order. |
| Cycle.Dispatch | main.py:506-514 | A missing or falsy decision runs nothing. A list runs each element, with the trace of the batch. Anything else runs exactly once. |
| Cycle.DispatchInOrder | main.py:506-510 | A list decision sends its parts' traces one after the other. |
| Cycle.SingletonListLikeItem | main.py:506-512 | A one-element list of a truthy non-list decision runs like that decision alone. |
| Cycle.RunCycle | main.py:483-515 | The iteration pauses iff the breaker trips. It retries iff the breaker does not trip and the account is missing or the market list is empty. Otherwise it builds the prompt from the market data and the account snapshot, and dispatches the decoded decision. |
| Cycle.AllPairsFailedStillRuns | main.py:496-514 | When every pair's market data failed (each entry `None`, as main.py:130-132 stores it) the iteration is not retried: it runs with an empty market section and dispatches the decision. |
| Cycle.CycleEffects | main.py:486-520 | A paused iteration sends only the pause notice. A retried one sends nothing. A run sends exactly its batch trace. |
| Cycle.SleepAfter | main.py:486-520 | The sleep is an hour iff paused, 30 seconds iff retried, and the 180-second loop interval after a run. |
| Cycle.DrawdownSkipsCycle | main.py:486-489 | At equity 9400 the iteration only sends the pause notice and sleeps 3600 seconds. |
| Cycle.NoDecisionSendsNothing | main.py:504-514 | With no decision, the iteration sends no order. |
| Modes.GetModeConfig | prompts.py:138-180 | A known mode gets its own entry and any other name gets baseline. Every result has default ≤ max leverage, a buffer in (0,1), a confidence floor in (0,1] and max positions > 0. |
| Modes.SystemPrompt | prompts.py:183-186 | Each known mode gets its own template. An unknown name gets the baseline template. |
| Modes.BaselineMatchesBot | prompts.py:139-145 | The baseline ceiling, default leverage, buffer and position cap equal the bot's constants 20, 10, 0.30 and 6. |

## Left out

- Network I/O is not modelled: Binance client calls, OpenRouter requests, Telegram delivery and logging. Exchange answers are the `Env` input. Requests are recorded in the trace.
- Every `_notify` call is recorded. Whether Telegram credentials are set (main.py:454) is not modelled.
- Candle retrieval and indicator computation (main.py:81-134) are outside the model. Market data is an input: the stored record of each pair (`Indicators`), or `None` for a failed pair. `Summarize` states how the bot forms that record from the latest unrounded readings.
- The `market == []` branch of the retry test is kept, though `get_market_data` gives every pair an entry (main.py:130-132) and the pair list is fixed and non-empty, so that branch is not reached by the bot.
- `json.loads` is the parameter `parse`. Its error is `None`.
- The HTTP status check and the envelope lookup `result['choices'][0]['message']['content']` (main.py:269-271, 286-288) are folded into `RequestFailed`: a non-200 status or a missing key returns None from `query_deepseek`, and the model gives no decision.
- A 200 response whose body is not JSON is not modelled. `response.json()` at main.py:270 raises `JSONDecodeError` before `content` is bound, so the handler at main.py:290-292 raises `UnboundLocalError`. That error leaves `query_deepseek` and reaches the loop's catch-all (main.py:526-528), which sleeps 60 seconds. The model treats the reply as `RequestFailed` instead: no decision and a 180-second sleep. Neither path sends an order.
- The prompt text, the rule block of main.py:176-209, the prompt templates of prompts.py and the `{rank}` placeholders are not modelled. Templates are opaque tokens.
- Number formatting (`,.2f`) and notification text are not modelled. A notification records only its kind.
- Reals replace floats. Rounding is exact round-half-to-even, so binary float artefacts of Python's `round` are not modelled.
- Sleeping, the `while True` loop, KeyboardInterrupt and the loop's catch-all handler (main.py:520-528) are not modelled. One iteration is modelled, with the sleep length it chooses.
- Leverage setup at start-up (main.py:69-79) is left out.
- One `Env` snapshot serves every call within an iteration. Fills from one decision of a batch do not change what the next decision sees.
- The CLOSE position list and the account are separate fields of `Env`, as they are separate exchange calls.
- A symbol that is not a string makes the ticker or position call raise. Python would pass it to the client, whose failure is what is modelled.
- `trade_history`, `positions` and `daily_pnl` (main.py:60-62) are never updated by the code, so they are not modelled.
- Account.AccountInfo: states each rounded field as a whole number of cents within half a cent of its exchange value, not as the exact value of Python's `round(x, 2)`. That bound and the grid are what callers rely on.

=== FILE: account.dfy ===
/** The account snapshot built from the exchange's account and position
    records (main.py:136-170). */
module Account {
  import opened Wrappers
  import opened Rounding

  /** One record of the exchange's position list, numbers already parsed. */
  datatype RawPosition = RawPosition(symbol: string, positionAmt: real, entryPrice: real, unRealizedProfit: real, leverage: int)

  /** The exchange's account record together with its position list. */
  datatype RawAccount = RawAccount(
    totalWalletBalance: real,
    totalUnrealizedProfit: real,
    availableBalance: real,
    positions: seq<RawPosition>)

  datatype PositionSide = Long | Short

  datatype Position = Position(symbol: string, side: PositionSide, size: real, entryPrice: real, unrealizedPnl: real, leverage: int)

  datatype Snapshot = Snapshot(
    balance: real,
    unrealizedPnl: real,
    available: real,
    equity: real,
    openPositions: seq<Position>,
    positionCount: nat)

  function Abs(x: real): real {
    if x < 0.0 then -x else x
  }

  /** The signed amount a position stands for: positive when long. */
  function SignedSize(p: Position): real {
    if p.side == Long then p.size else -p.size
  }

  /** The snapshot entry for one exchange record. It keeps the signed
      amount: side and size together give back `positionAmt`. */
  function ToPosition(raw: RawPosition): (p: Position)
    ensures SignedSize(p) == raw.positionAmt
    ensures raw.positionAmt != 0.0 ==> p.size > 0.0
    ensures p.symbol == raw.symbol && p.entryPrice == raw.entryPrice
    ensures p.unrealizedPnl == raw.unRealizedProfit && p.leverage == raw.leverage
  {
    Position(
      raw.symbol,
      if raw.positionAmt > 0.0 then Long else Short,
      Abs(raw.positionAmt),
      raw.entryPrice,
      raw.unRealizedProfit,
      raw.leverage)
  }

  /** The records with a non-zero amount, in exchange order. */
  function OpenPositions(raw: seq<RawPosition>): (open: seq<Position>)
    ensures |open| <= |raw|
    ensures forall i :: 0 <= i < |open| ==> open[i].size > 0.0
  {
    if raw == [] then []
    else if raw[0].positionAmt != 0.0 then [ToPosition(raw[0])] + OpenPositions(raw[1..])
    else OpenPositions(raw[1..])
  }

  /** The filter keeps exchange order: the snapshot of two runs of records
      is the snapshot of the first followed by that of the second. */
  lemma {:induction false} OpenPositionsAppend(a: seq<RawPosition>, b: seq<RawPosition>)
    ensures OpenPositions(a + b) == OpenPositions(a) + OpenPositions(b)
  {
    if a != [] {
      assert (a + b)[1..] == a[1..] + b;
      OpenPositionsAppend(a[1..], b);
    } else {
      assert a + b == b;
    }
  }

  /** A single record gives its position when its amount is non-zero, and
      nothing otherwise. */
  lemma OpenPositionsSingle(r: RawPosition)
    ensures OpenPositions([r]) == if r.positionAmt != 0.0 then [ToPosition(r)] else []
  {
    assert [r][1..] == [];
  }

  /** Number of records with a non-zero amount. */
  function CountOpen(raw: seq<RawPosition>): nat {
    if raw == [] then 0
    else (if raw[0].positionAmt != 0.0 then 1 else 0) + CountOpen(raw[1..])
  }

  /** The snapshot lists exactly the non-zero records: each of them appears,
      and nothing else does. */
  lemma {:induction false} OpenPositionsExactly(raw: seq<RawPosition>)
    ensures forall r :: r in raw && r.positionAmt != 0.0 ==> ToPosition(r) in OpenPositions(raw)
    ensures forall p :: p in OpenPositions(raw) ==> exists r :: r in raw && r.positionAmt != 0.0 && p == ToPosition(r)
    ensures |OpenPositions(raw)| == CountOpen(raw)
  {
    if raw != [] {
      OpenPositionsExactly(raw[1..]);
      assert forall r :: r in raw ==> r == raw[0] || r in raw[1..];
    }
  }

  /** `shown` is a whole number of cents within half a cent of `x`. */
  predicate Cents(x: real, shown: real) {
    x - HalfStep(2) <= shown <= x + HalfStep(2) && OnGrid(shown, 2)
  }

  lemma RoundToCents(x: real)
    ensures Cents(x, RoundTo(x, 2))
  {
    RoundToError(x, 2);
    RoundToOnGrid(x, 2);
  }

  /** `get_account_info`: None when the exchange calls failed; otherwise the
      rounded balances, equity as the rounded sum of balance and unrealized
      profit, and the open positions with their count. */
  function AccountInfo(raw: Option<RawAccount>): (a: Option<Snapshot>)
    ensures a.Some? <==> raw.Some?
    ensures a.Some? ==> a.value.positionCount == |a.value.openPositions|
    ensures a.Some? ==> a.value.openPositions == OpenPositions(raw.value.positions)
    ensures a.Some? ==>
      var sum := raw.value.totalWalletBalance + raw.value.totalUnrealizedProfit;
      sum - HalfStep(2) <= a.value.equity <= sum + HalfStep(2) && OnGrid(a.value.equity, 2)
    ensures a.Some? ==> Cents(raw.value.totalWalletBalance, a.value.balance)
    ensures a.Some? ==> Cents(raw.value.totalUnrealizedProfit, a.value.unrealizedPnl)
    ensures a.Some? ==> Cents(raw.value.availableBalance, a.value.available)
  {
    match raw
    case None => None
    case Some(r) =>
      var open := OpenPositions(r.positions);
      var sum := r.totalWalletBalance + r.totalUnrealizedProfit;
      RoundToCents(sum);
      RoundToCents(r.totalWalletBalance);
      RoundToCents(r.totalUnrealizedProfit);
      RoundToCents(r.availableBalance);
      Some(Snapshot(
        RoundTo(r.totalWalletBalance, 2),
        RoundTo(r.totalUnrealizedProfit, 2),
        RoundTo(r.availableBalance, 2),
        RoundTo(sum, 2),
        open,
        |open|))
  }
}

=== FILE: breaker.dfy ===
/** The daily-loss circuit breaker (main.py:465-476). */
module Breaker {
  import opened Wrappers
  import opened Config
  import opened Account

  /** Relative change of equity against the starting balance. */
  function DailyReturn(equity: real): real {
    (equity - InitialBalance) / InitialBalance
  }

  /** `check_daily_loss`: trips when the account could be read and the
      return is at or below minus the daily limit, i.e. when equity has
      fallen to 95% of the starting balance or lower. An unreadable account
      never trips it. */
  function CheckDailyLoss(account: Option<Snapshot>): (tripped: bool)
    ensures tripped <==> account.Some? && account.value.equity <= 9500.0
  {
    account.Some? && DailyReturn(account.value.equity) <= -DailyLossLimit
  }

  /** Starting from 10000, equity 9400 is a 6% loss and trips the breaker;
      equity 9600 is a 4% loss and does not. */
  lemma SixPercentLossTrips(a: Snapshot)
    requires a.equity == 9400.0
    ensures CheckDailyLoss(Some(a))
    ensures !CheckDailyLoss(Some(a.(equity := 9600.0)))
    ensures !CheckDailyLoss(None)
  {
  }
}

=== FILE: config.dfy ===
/** The module-level constants of the trading bot (main.py:29-36) and the
    sleep intervals of its main loop (main.py:488, 498, 520). */
module Config {

  const MaxLeverage: nat := 20
  const DefaultLeverage: nat := 10
  /** Fraction of available margin that an entry never spends. */
  const CashBufferPercent: real := 0.30
  const MaxPositions: nat := 6
  const DailyLossLimit: real := 0.05
  /** The starting balance the daily-loss breaker compares equity against. */
  const InitialBalance: real := 10000.0

  /** Seconds slept after a normal cycle. */
  const LoopInterval: nat := 180
  /** Seconds slept after the daily-loss breaker trips. */
  const PauseInterval: nat := 3600
  /** Seconds slept when market or account data could not be fetched. */
  const RetryInterval: nat := 30
}

=== FILE: cycle.dfy ===
/** One iteration of the bot's main loop (main.py:478-528), and the part of
    `query_deepseek` that turns the model's reply into a decision
    (main.py:269-296). */
module Cycle {
  import opened Wrappers
  import opened Config
  import opened Json
  import opened Reply
  import opened Account
  import opened Orders
  import opened Breaker
  import opened Prompt
  import opened Execution

  /** What came back from the model endpoint: nothing usable (a network
      error, a non-200 status, a malformed envelope), or the reply text. */
  datatype OracleReply = RequestFailed | Completion(content: string)

  /** The decision of `query_deepseek`, given `parse` for `json.loads`
      (None on a decode error): the cleaned reply decoded, or None. */
  function QueryDecision(reply: OracleReply, parse: string -> Option<Json>): (d: Option<Json>)
    ensures reply.RequestFailed? ==> d.None?
    ensures reply.Completion? ==> d == parse(CleanReply(reply.content))
  {
    match reply
    case RequestFailed => None
    case Completion(content) => parse(CleanReply(content))
  }

  /** A reply wrapped in "```json" or "```" fences, with any whitespace
      around them, yields the same decision as the bare JSON. */
  lemma FencedReplySameDecision(lead: string, inner: string, trail: string, parse: string -> Option<Json>)
    requires AllSpace(lead) && AllSpace(trail) && JsonShaped(Strip(inner))
    ensures QueryDecision(Completion(lead + "```json" + inner + "```" + trail), parse) == QueryDecision(Completion(inner), parse)
    ensures QueryDecision(Completion(lead + "```" + inner + "```" + trail), parse) == QueryDecision(Completion(inner), parse)
  {
    FencedLikeUnfenced(lead, inner, trail);
  }

  /** Results of a batch of decisions and the concatenated trace. */
  datatype Batch = Batch(results: seq<bool>, effects: seq<Effect>)

  /** The results of a run of outcomes and their traces joined in order. */
  function Collect(outs: seq<Outcome>): (b: Batch)
    ensures |b.results| == |outs|
    ensures forall i :: 0 <= i < |outs| ==> b.results[i] == outs[i].ok
    ensures (forall i :: 0 <= i < |outs| ==> NoOrders(outs[i].effects)) ==> NoOrders(b.effects)
    ensures |outs| == 1 ==> b == Batch([outs[0].ok], outs[0].effects)
  {
    if outs == [] then Batch([], [])
    else
      var rest := Collect(outs[1..]);
      assert forall i :: 1 <= i < |outs| ==> outs[i] == outs[1..][i - 1];
      NoOrdersAppend(outs[0].effects, rest.effects);
      Batch([outs[0].ok] + rest.results, outs[0].effects + rest.effects)
  }

  /** Collecting a joined run is collecting each part, one after the other. */
  lemma {:induction false} CollectAppend(xs: seq<Outcome>, ys: seq<Outcome>)
    ensures Collect(xs + ys).results == Collect(xs).results + Collect(ys).results
    ensures Collect(xs + ys).effects == Collect(xs).effects + Collect(ys).effects
  {
    if xs != [] {
      assert (xs + ys)[1..] == xs[1..] + ys;
      CollectAppend(xs[1..], ys);
    } else {
      assert xs + ys == ys;
    }
  }

  /** The outcome of each decision of a list on its own. */
  function Outcomes(items: seq<Json>, env: Env): (outs: seq<Outcome>)
    ensures |outs| == |items|
    ensures forall i :: 0 <= i < |items| ==> outs[i] == ExecuteTrade(items[i], env)
  {
    seq(|items|, i requires 0 <= i < |items| => ExecuteTrade(items[i], env))
  }

  /** Runs each decision of a list in order; a failing one does not stop
      the ones after it. */
  function ExecuteAll(items: seq<Json>, env: Env): (b: Batch)
    ensures |b.results| == |items|
    ensures forall i :: 0 <= i < |items| ==> b.results[i] == ExecuteTrade(items[i], env).ok
    ensures (forall i :: 0 <= i < |items| ==> NoOrders(ExecuteTrade(items[i], env).effects)) ==> NoOrders(b.effects)
    ensures |items| == 1 ==> b == Batch([ExecuteTrade(items[0], env).ok], ExecuteTrade(items[0], env).effects)
  {
    Collect(Outcomes(items, env))
  }

  lemma OutcomesAppend(xs: seq<Json>, ys: seq<Json>, env: Env)
    ensures Outcomes(xs + ys, env) == Outcomes(xs, env) + Outcomes(ys, env)
  {
    var joined := Outcomes(xs, env) + Outcomes(ys, env);
    assert forall i :: 0 <= i < |xs| ==> (xs + ys)[i] == xs[i] && joined[i] == Outcomes(xs, env)[i];
    assert forall i :: |xs| <= i < |xs| + |ys| ==> (xs + ys)[i] == ys[i - |xs|] && joined[i] == Outcomes(ys, env)[i - |xs|];
  }

  /** Running a list is running its first part and then its second: the
      batch trace is the elements' traces, in list order. */
  lemma ExecuteAllAppend(xs: seq<Json>, ys: seq<Json>, env: Env)
    ensures ExecuteAll(xs + ys, env).results == ExecuteAll(xs, env).results + ExecuteAll(ys, env).results
    ensures ExecuteAll(xs + ys, env).effects == ExecuteAll(xs, env).effects + ExecuteAll(ys, env).effects
  {
    OutcomesAppend(xs, ys, env);
    CollectAppend(Outcomes(xs, env), Outcomes(ys, env));
  }

  /** main.py:506-514: a falsy or missing decision runs nothing, a list runs
      each element in order, anything else runs once. */
  function Dispatch(decision: Option<Json>, env: Env): (b: Batch)
    ensures decision.None? || !Truthy(decision.value) ==> b == Batch([], [])
    ensures decision.Some? && Truthy(decision.value) && decision.value.JArr? ==>
      |b.results| == |decision.value.items| &&
      (forall i :: 0 <= i < |decision.value.items| ==> b.results[i] == ExecuteTrade(decision.value.items[i], env).ok) &&
      b.effects == ExecuteAll(decision.value.items, env).effects
    ensures decision.Some? && Truthy(decision.value) && !decision.value.JArr? ==>
      b == Batch([ExecuteTrade(decision.value, env).ok], ExecuteTrade(decision.value, env).effects)
  {
    match decision
    case None => Batch([], [])
    case Some(d) =>
      if !Truthy(d) then Batch([], [])
      else if d.JArr? then ExecuteAll(d.items, env)
      else
        var r := ExecuteTrade(d, env);
        Batch([r.ok], r.effects)
  }

  /** A list decision sends the traces of its parts one after the other. */
  lemma DispatchInOrder(xs: seq<Json>, ys: seq<Json>, env: Env)
    ensures Dispatch(Some(JArr(xs + ys)), env).effects == ExecuteAll(xs, env).effects + ExecuteAll(ys, env).effects
  {
    if xs + ys == [] {
      assert xs == [] && ys == [];
    } else {
      assert Truthy(JArr(xs + ys));
    }
    ExecuteAllAppend(xs, ys, env);
  }

  /** A one-element list runs like its element alone, when that element is
      itself truthy and not a list. */
  lemma SingletonListLikeItem(d: Json, env: Env)
    requires Truthy(d) && !d.JArr?
    ensures Dispatch(Some(JArr([d])), env) == Dispatch(Some(d), env)
  {
  }

  /** The branch one loop iteration takes. */
  datatype Iteration =
    | Paused
    | Retry
    | Ran(prompt: PromptSkeleton, decision: Option<Json>, batch: Batch)

  /** One iteration: the breaker first, then market and account data, then
      prompt, model and the decisions. */
  function RunCycle(market: MarketData, env: Env, reply: OracleReply, parse: string -> Option<Json>): (c: Iteration)
    ensures c.Paused? <==> CheckDailyLoss(AccountInfo(env.account))
    ensures c.Retry? <==> !CheckDailyLoss(AccountInfo(env.account)) && (market == [] || env.account.None?)
    ensures c.Ran? ==> c.decision == QueryDecision(reply, parse) && c.batch == Dispatch(c.decision, env)
    ensures c.Ran? ==> env.account.Some? && c.prompt == BuildPrompt(market, AccountInfo(env.account).value)
  {
    var account := AccountInfo(env.account);
    if CheckDailyLoss(account) then Paused
    else if market == [] || account.None? then Retry
    else
      var prompt := BuildPrompt(market, account.value);
      var decision := QueryDecision(reply, parse);
      Ran(prompt, decision, Dispatch(decision, env))
  }

  /** The requests an iteration sends. */
  function CycleEffects(c: Iteration): (e: seq<Effect>)
    ensures !c.Ran? ==> NoOrders(e) && |e| <= 1
    ensures c.Paused? ==> Notify(DailyLimitReached) in e
    ensures c.Retry? ==> e == []
    ensures c.Ran? ==> e == c.batch.effects
  {
    match c
    case Paused => [Notify(DailyLimitReached)]
    case Retry => []
    case Ran(_, _, batch) => batch.effects
  }

  /** Seconds the loop sleeps after an iteration. */
  function SleepAfter(c: Iteration): (s: nat)
    ensures s == PauseInterval <==> c.Paused?
    ensures s == RetryInterval <==> c.Retry?
    ensures s >= RetryInterval
    ensures c.Ran? ==> s == LoopInterval
  {
    match c
    case Paused => PauseInterval
    case Retry => RetryInterval
    case Ran(_, _, _) => LoopInterval
  }

  /** The market-data step gives every pair an entry, None when its fetch
      failed, so an iteration where every pair failed is not retried: it
      asks the model with an empty market section and runs the decision. */
  lemma AllPairsFailedStillRuns(market: MarketData, env: Env, reply: OracleReply, parse: string -> Option<Json>)
    requires market != [] && forall i :: 0 <= i < |market| ==> market[i].1.None?
    requires env.account.Some? && !CheckDailyLoss(AccountInfo(env.account))
    ensures var c := RunCycle(market, env, reply, parse);
      c.Ran? && c.prompt.market == [] && c.batch == Dispatch(QueryDecision(reply, parse), env)
  {
    NoDataNoBlocks(market);
  }

  /** With equity at 9400 against the 10000 starting balance, the iteration
      is skipped entirely: only the pause notice is sent, no order, and the
      loop sleeps an hour. */
  lemma DrawdownSkipsCycle(market: MarketData, env: Env, reply: OracleReply, parse: string -> Option<Json>)
    requires env.account.Some?
    requires AccountInfo(env.account).value.equity == 9400.0
    ensures var c := RunCycle(market, env, reply, parse);
      c == Paused && CycleEffects(c) == [Notify(DailyLimitReached)] && SleepAfter(c) == 3600
  {
  }

  /** A failed model request, or a reply that does not decode, sends no
      order: at most the breaker's pause notice. */
  lemma NoDecisionSendsNothing(market: MarketData, env: Env, reply: OracleReply, parse: string -> Option<Json>)
    ensures var c := RunCycle(market, env, reply, parse);
      QueryDecision(reply, parse).None? ==>
      CycleEffects(c) == [] || CycleEffects(c) == [Notify(DailyLimitReached)]
  {
  }
}

=== FILE: execution.dfy ===
/** `execute_trade` and its helpers (main.py:298-450): one decision record in,
    a success flag and the trace of requests it sent out. */
module Execution {
  import opened Wrappers
  import opened Config
  import opened Json
  import opened Rounding
  import opened Account
  import opened Orders

  /** What the exchange answers during one decision: the raw account (None
      when the account calls fail), the ticker price of each symbol it
      knows, the position amounts it reports per symbol, and the requests it
      refuses. A symbol missing from a map, or a refused request, makes the
      corresponding call raise. */
  datatype Env = Env(
    account: Option<RawAccount>,
    prices: map<string, real>,
    positions: map<string, seq<real>>,
    rejected: set<Effect>)

  predicate Accepts(env: Env, e: Effect) {
    e !in env.rejected
  }

  datatype Outcome = Outcome(ok: bool, effects: seq<Effect>)

  /** The exception handler of `execute_trade`: the requests already sent,
      then an error notification, and False. */
  function Failed(sent: seq<Effect>): (r: Outcome)
    ensures !r.ok && |r.effects| == |sent| + 1 && r.effects[|sent|] == Notify(TradeFailed)
    ensures r.effects[..|sent|] == sent
  {
    Outcome(false, sent + [Notify(TradeFailed)])
  }

  datatype Action = Hold | OpenLong | OpenShort | Close | Other

  /** The branch `execute_trade` takes; a missing action counts as HOLD. */
  function Classify(fields: map<string, Json>): (a: Action)
    ensures "action" !in fields ==> a == Hold
    ensures a == Hold <==> Get(fields, "action", JStr("HOLD")) == JStr("HOLD")
    ensures a == OpenLong <==> Get(fields, "action", JStr("HOLD")) == JStr("OPEN_LONG")
    ensures a == OpenShort <==> Get(fields, "action", JStr("HOLD")) == JStr("OPEN_SHORT")
    ensures a == Close <==> Get(fields, "action", JStr("HOLD")) == JStr("CLOSE")
    ensures a == Other <==>
      ("action" in fields && fields["action"] !in {JStr("HOLD"), JStr("OPEN_LONG"), JStr("OPEN_SHORT"), JStr("CLOSE")})
  {
    var action := Get(fields, "action", JStr("HOLD"));
    if action == JStr("HOLD") then Hold
    else if action == JStr("OPEN_LONG") then OpenLong
    else if action == JStr("OPEN_SHORT") then OpenShort
    else if action == JStr("CLOSE") then Close
    else Other
  }

  const QuantityPrecisions: map<string, nat> :=
    map["BTCUSDT" := 3, "ETHUSDT" := 3, "SOLUSDT" := 1, "XRPUSDT" := 0, "DOGEUSDT" := 0, "BNBUSDT" := 2]

  const PricePrecisions: map<string, nat> :=
    map["BTCUSDT" := 1, "ETHUSDT" := 2, "SOLUSDT" := 2, "XRPUSDT" := 4, "DOGEUSDT" := 5, "BNBUSDT" := 2]

  /** Decimal places of a quantity; 3 for a symbol outside the table. */
  function QuantityPrecision(symbol: string): nat {
    if symbol in QuantityPrecisions then QuantityPrecisions[symbol] else 3
  }

  /** Decimal places of a stop price; 2 for a symbol outside the table. */
  function PricePrecision(symbol: string): nat {
    if symbol in PricePrecisions then PricePrecisions[symbol] else 2
  }

  /** `_round_quantity`: the quantity to the symbol's lot precision, at most
      half a step away. */
  function RoundQuantity(symbol: string, quantity: real): (q: real)
    ensures quantity - HalfStep(QuantityPrecision(symbol)) <= q <= quantity + HalfStep(QuantityPrecision(symbol))
    ensures q <= 0.0 <==> quantity <= HalfStep(QuantityPrecision(symbol))
    ensures OnGrid(q, QuantityPrecision(symbol))
  {
    RoundToError(quantity, QuantityPrecision(symbol));
    RoundToOnGrid(quantity, QuantityPrecision(symbol));
    RoundToNonPositive(quantity, QuantityPrecision(symbol));
    RoundTo(quantity, QuantityPrecision(symbol))
  }

  /** `_round_price`: the price to the symbol's tick precision, at most half
      a step away. */
  function RoundPrice(symbol: string, price: real): (p: real)
    ensures price - HalfStep(PricePrecision(symbol)) <= p <= price + HalfStep(PricePrecision(symbol))
    ensures OnGrid(p, PricePrecision(symbol))
  {
    RoundToError(price, PricePrecision(symbol));
    RoundToOnGrid(price, PricePrecision(symbol));
    RoundTo(price, PricePrecision(symbol))
  }

  /** Margin an entry commits: the available margin less the cash buffer,
      times the requested percentage. */
  function EntryMargin(available: real, sizePercent: real): real {
    available * (1.0 - CashBufferPercent) * (sizePercent / 100.0)
  }

  /** The quantity before rounding: margin times leverage over price. */
  function Target(available: real, sizePercent: real, leverage: real, price: real): real
    requires price != 0.0
  {
    EntryMargin(available, sizePercent) * leverage / price
  }

  /** Outcome of the sizing steps that run before anything is sent. */
  datatype Sizing =
    | SizingFailed
    | ZeroQuantity
    | Sized(symbol: string, leverage: real, price: real, quantity: real)

  /** The entry's requested percentage, 10 when absent. */
  function SizePercent(fields: map<string, Json>): Option<real> {
    AsNumber(Get(fields, "size_percent", JNum(10.0)))
  }

  /** The entry's requested leverage, passed on as given: 10 when absent,
      never compared with the leverage ceiling. */
  function Leverage(fields: map<string, Json>): Option<real> {
    AsNumber(Get(fields, "leverage", JNum(DefaultLeverage as real)))
  }

  /** main.py:310-328: read the account, the size and the leverage, fetch the
      ticker and compute the rounded quantity. Any raising step (no account,
      a non-numeric size or leverage, an unknown symbol, a zero price) is a
      failure; a quantity that rounds to zero or below is refused. */
  function SizeEntry(fields: map<string, Json>, env: Env): (s: Sizing)
    ensures s.Sized? ==> s.quantity > 0.0 && s.price != 0.0
    ensures s.Sized? ==> Get(fields, "symbol", JStr("")) == JStr(s.symbol) && s.symbol in env.prices
    ensures s.Sized? ==> Leverage(fields) == Some(s.leverage)
  {
    SizeFrom(Get(fields, "symbol", JStr("")), SizePercent(fields), Leverage(fields), env)
  }

  /** The sizing steps on the three values they read from the decision. */
  function SizeFrom(symbol: Json, sizePercent: Option<real>, leverage: Option<real>, env: Env): (s: Sizing)
    ensures s.Sized? ==> s.quantity > 0.0 && s.price != 0.0
    ensures s.Sized? ==> symbol == JStr(s.symbol) && s.symbol in env.prices
    ensures s.Sized? ==> leverage == Some(s.leverage)
  {
    var account := AccountInfo(env.account);
    if account.None? || sizePercent.None? then SizingFailed
    else if !symbol.JStr? || symbol.s !in env.prices then SizingFailed
    else
      var price := env.prices[symbol.s];
      if leverage.None? || price == 0.0 then SizingFailed
      else
        var quantity := RoundQuantity(symbol.s, Target(account.value.available, sizePercent.value, leverage.value, price));
        if quantity <= 0.0 then ZeroQuantity
        else Sized(symbol.s, leverage.value, price, quantity)
  }

  /** `_set_tp_sl` (main.py:389-423): a reduce-only take-profit and then a
      reduce-only stop, both on the side closing the entry and for the entry
      quantity, at prices rounded for the symbol. A price that `round`
      rejects, or a refused take-profit, ends the bracket early; the error is
      swallowed. */
  function Bracket(symbol: string, long: bool, quantity: real, tp: Json, sl: Json, env: Env): (sent: seq<Effect>)
    ensures |sent| <= 2
    ensures forall k :: 0 <= k < |sent| ==>
      && sent[k].PlaceOrder?
      && sent[k].order.symbol == symbol
      && sent[k].order.quantity == quantity
      && sent[k].order.reduceOnly
      && (sent[k].order.side == Sell <==> long)
      && !sent[k].order.orderType.Market?
  {
    var side := if long then Sell else Buy;
    match AsNumber(tp)
    case None => []
    case Some(tpPrice) =>
      var tpOrder := PlaceOrder(Order(symbol, side, TakeProfitMarket(RoundPrice(symbol, tpPrice)), quantity, true));
      if !Accepts(env, tpOrder) then [tpOrder]
      else
        match AsNumber(sl)
        case None => [tpOrder]
        case Some(slPrice) =>
          [tpOrder, PlaceOrder(Order(symbol, side, StopMarket(RoundPrice(symbol, slPrice)), quantity, true))]
  }

  /** The entry order for a sized decision. */
  function EntryOrder(s: Sizing, long: bool): Order
    requires s.Sized?
  {
    Order(s.symbol, if long then Buy else Sell, Market, s.quantity, false)
  }

  /** main.py:331-356: the requests of a sized entry. The leverage change,
      the market entry, the bracket when both targets are truthy, then the
      notification, whose formatting raises unless both targets are
      numbers. */
  function Place(s: Sizing, long: bool, tp: Json, sl: Json, env: Env): (r: Outcome)
    requires s.Sized?
    ensures r.effects != [] && r.effects[|r.effects| - 1] == Notify(if r.ok then Opened else TradeFailed)
    ensures r.effects[0] == ChangeLeverage(s.symbol, s.leverage)
    ensures r.ok ==> |r.effects| >= 3 && r.effects[1] == PlaceOrder(EntryOrder(s, long)) && AsNumber(tp).Some? && AsNumber(sl).Some?
    ensures forall k :: 0 <= k < |r.effects| && r.effects[k].PlaceOrder? ==>
      && r.effects[k].order.symbol == s.symbol
      && r.effects[k].order.quantity == s.quantity
      && (!r.effects[k].order.reduceOnly ==> r.effects[k].order == EntryOrder(s, long))
      && (r.effects[k].order.reduceOnly ==> r.effects[k].order.side == Opposite(EntryOrder(s, long).side))
      && (r.effects[k].order.reduceOnly ==> Truthy(tp) && Truthy(sl))
  {
    var setLeverage := ChangeLeverage(s.symbol, s.leverage);
    var entry := PlaceOrder(EntryOrder(s, long));
    if !Accepts(env, setLeverage) then Failed([setLeverage])
    else if !Accepts(env, entry) then Failed([setLeverage, entry])
    else
      var bracket := if Truthy(tp) && Truthy(sl) then Bracket(s.symbol, long, s.quantity, tp, sl, env) else [];
      var sent := [setLeverage, entry] + bracket;
      assert forall k :: 2 <= k < |sent| ==> sent[k] == bracket[k - 2];
      if AsNumber(tp).Some? && AsNumber(sl).Some? then Outcome(true, sent + [Notify(Opened)])
      else Failed(sent)
  }

  /** main.py:308-356: an OPEN_LONG or OPEN_SHORT decision. */
  function Enter(fields: map<string, Json>, long: bool, env: Env): (r: Outcome)
    ensures r.effects == [] <==> SizeEntry(fields, env).ZeroQuantity?
    ensures r.effects != [] ==> r.effects[|r.effects| - 1] == Notify(if r.ok then Opened else TradeFailed)
    ensures r.ok ==> var s := SizeEntry(fields, env);
      && s.Sized?
      && |r.effects| >= 3
      && r.effects[0] == ChangeLeverage(s.symbol, s.leverage)
      && r.effects[1] == PlaceOrder(EntryOrder(s, long))
      && AsNumber(Get(fields, "take_profit", JNull)).Some?
      && AsNumber(Get(fields, "stop_loss", JNull)).Some?
    ensures forall k :: 0 <= k < |r.effects| && r.effects[k].PlaceOrder? ==>
      && Get(fields, "symbol", JStr("")) == JStr(r.effects[k].order.symbol)
      && r.effects[k].order.quantity > 0.0
  {
    var s := SizeEntry(fields, env);
    match s
    case SizingFailed => Failed([])
    case ZeroQuantity => Outcome(false, [])
    case Sized(_, _, _, _) => Place(s, long, Get(fields, "take_profit", JNull), Get(fields, "stop_loss", JNull), env)
  }

  /** Index of the first non-zero amount. */
  function FirstOpen(amounts: seq<real>): (i: Option<nat>)
    ensures i.Some? ==> i.value < |amounts| && amounts[i.value] != 0.0
    ensures i.Some? ==> forall j :: 0 <= j < i.value ==> amounts[j] == 0.0
    ensures i.None? ==> forall j :: 0 <= j < |amounts| ==> amounts[j] == 0.0
  {
    if amounts == [] then None
    else if amounts[0] != 0.0 then Some(0)
    else match FirstOpen(amounts[1..])
      case None => None
      case Some(k) => Some(k + 1)
  }

  /** The exchange reports the symbol, and every amount it reports for it is
      zero. */
  predicate AllFlat(symbol: Json, env: Env) {
    && symbol.JStr?
    && symbol.s in env.positions
    && forall j :: 0 <= j < |env.positions[symbol.s]| ==> env.positions[symbol.s][j] == 0.0
  }

  /** main.py:358-380: a CLOSE decision offsets the first non-zero position
      of the symbol with a reduce-only market order. */
  function ClosePosition(fields: map<string, Json>, env: Env): (r: Outcome)
    ensures |r.effects| <= 2
    ensures r.ok ==> |r.effects| == 2 && r.effects[1] == Notify(Closed)
    ensures r.effects == [] <==> AllFlat(Get(fields, "symbol", JStr("")), env)
    ensures forall k :: 0 <= k < |r.effects| && r.effects[k].PlaceOrder? ==>
      && k == 0
      && Get(fields, "symbol", JStr("")) == JStr(r.effects[k].order.symbol)
      && r.effects[k].order.reduceOnly
      && r.effects[k].order.orderType == Market
      && r.effects[k].order.quantity > 0.0
  {
    var symbol := Get(fields, "symbol", JStr(""));
    if !symbol.JStr? || symbol.s !in env.positions then Failed([])
    else
      var amounts := env.positions[symbol.s];
      match FirstOpen(amounts)
      case None => Outcome(false, [])
      case Some(i) =>
        var amount := amounts[i];
        var order := PlaceOrder(Order(symbol.s, if amount > 0.0 then Sell else Buy, Market, Abs(amount), true));
        if Accepts(env, order) then Outcome(true, [order, Notify(Closed)])
        else Failed([order])
  }

  /** `execute_trade`. Something other than a JSON object fails at once;
      HOLD and unrecognised actions send nothing and succeed; every order
      sent is for the decision's symbol and for a positive quantity. */
  function ExecuteTrade(decision: Json, env: Env): (r: Outcome)
    ensures !decision.JObj? ==> r == Outcome(false, [Notify(TradeFailed)])
    ensures decision.JObj? && Classify(decision.fields) in {Hold, Other} ==> r == Outcome(true, [])
    ensures decision.JObj? && Classify(decision.fields) == OpenLong ==> r == Enter(decision.fields, true, env)
    ensures decision.JObj? && Classify(decision.fields) == OpenShort ==> r == Enter(decision.fields, false, env)
    ensures decision.JObj? && Classify(decision.fields) == Close ==> r == ClosePosition(decision.fields, env)
    ensures forall k :: 0 <= k < |r.effects| && r.effects[k].PlaceOrder? ==>
      && decision.JObj?
      && Get(decision.fields, "symbol", JStr("")) == JStr(r.effects[k].order.symbol)
      && r.effects[k].order.quantity > 0.0
  {
    match decision
    case JObj(fields) =>
      (match Classify(fields)
       case Hold => Outcome(true, [])
       case OpenLong => Enter(fields, true, env)
       case OpenShort => Enter(fields, false, env)
       case Close => ClosePosition(fields, env)
       case Other => Outcome(true, []))
    case _ => Failed([])
  }
}

=== FILE: execution_facts.dfy ===
/** Properties of `execute_trade` that relate several of its steps: entry
    sizing, the bracket mirroring the entry, refusal of zero quantities, and
    closing only what is open. */
module ExecutionFacts {
  import opened Wrappers
  import opened Config
  import opened Json
  import opened Rounding
  import opened Account
  import opened Orders
  import opened Execution

  /** For a percentage between 0 and 100 the margin an entry commits is
      never more than the 70% of available margin outside the cash buffer,
      so at least 30% stays unused. */
  lemma MarginWithinCashBuffer(available: real, sizePercent: real)
    requires available >= 0.0 && 0.0 <= sizePercent <= 100.0
    ensures 0.0 <= EntryMargin(available, sizePercent) <= (1.0 - CashBufferPercent) * available
    ensures available - EntryMargin(available, sizePercent) >= CashBufferPercent * available
  {
    var usable := available * (1.0 - CashBufferPercent);
    assert usable >= 0.0;
    assert EntryMargin(available, sizePercent) == usable * (sizePercent / 100.0);
    assert 0.0 <= sizePercent / 100.0 <= 1.0;
    assert usable * (sizePercent / 100.0) <= usable * 1.0;
  }

  /** The inputs under which sizing reaches the quantity computation. */
  predicate SizingInputsOk(fields: map<string, Json>, env: Env, symbol: string) {
    && env.account.Some?
    && SizePercent(fields).Some?
    && Leverage(fields).Some?
    && Get(fields, "symbol", JStr("")) == JStr(symbol)
    && symbol in env.prices
    && env.prices[symbol] != 0.0
  }

  /** The entry's quantity before rounding. */
  function TargetQuantity(fields: map<string, Json>, env: Env, symbol: string): real
    requires SizingInputsOk(fields, env, symbol)
  {
    Target(AccountInfo(env.account).value.available, SizePercent(fields).value, Leverage(fields).value, env.prices[symbol])
  }

  /** With usable inputs, sizing ends in the rounded target quantity, or
      in a refusal when that rounds to zero or below. */
  lemma SizingUnfolds(fields: map<string, Json>, env: Env, symbol: string)
    requires SizingInputsOk(fields, env, symbol)
    ensures var q := RoundQuantity(symbol, TargetQuantity(fields, env, symbol));
      SizeEntry(fields, env) ==
        if q <= 0.0 then ZeroQuantity else Sized(symbol, Leverage(fields).value, env.prices[symbol], q)
  {
  }

  /** Sizing succeeds exactly when its inputs are usable and the target
      quantity is more than half a lot step; it is refused as zero exactly
      when the target is at most half a step. A sized quantity lies within
      half a step of the target. */
  lemma SizingOutcome(fields: map<string, Json>, env: Env, symbol: string)
    requires SizingInputsOk(fields, env, symbol)
    ensures var s := SizeEntry(fields, env);
      && (s.ZeroQuantity? <==> TargetQuantity(fields, env, symbol) <= HalfStep(QuantityPrecision(symbol)))
      && (s.Sized? <==> TargetQuantity(fields, env, symbol) > HalfStep(QuantityPrecision(symbol)))
      && (s.Sized? ==>
            && s.symbol == symbol
            && s.price == env.prices[symbol]
            && TargetQuantity(fields, env, symbol) - HalfStep(QuantityPrecision(symbol)) <= s.quantity
            && s.quantity <= TargetQuantity(fields, env, symbol) + HalfStep(QuantityPrecision(symbol)))
  {
    var t := TargetQuantity(fields, env, symbol);
    var d := QuantityPrecision(symbol);
    SizingUnfolds(fields, env, symbol);
    RoundToNonPositive(t, d);
    RoundToError(t, d);
  }

  /** With no size or leverage given, an entry uses 10% of the margin left
      after the buffer at 10x leverage: 70% of available margin over price,
      before rounding. */
  lemma DefaultSizing(fields: map<string, Json>, env: Env, symbol: string)
    requires "size_percent" !in fields && "leverage" !in fields
    requires env.account.Some?
    requires Get(fields, "symbol", JStr("")) == JStr(symbol) && symbol in env.prices && env.prices[symbol] != 0.0
    ensures SizingInputsOk(fields, env, symbol)
    ensures TargetQuantity(fields, env, symbol) == 0.7 * AccountInfo(env.account).value.available / env.prices[symbol]
  {
    var available := AccountInfo(env.account).value.available;
    assert SizePercent(fields) == Some(10.0);
    assert Leverage(fields) == Some(10.0);
    assert EntryMargin(available, 10.0) == available * 0.07;
  }

  /** A quantity that rounds to zero sends nothing at all: no leverage
      change, no order, no notification, and the result is False. A sizing
      that raises sends only the failure notification. */
  lemma ZeroQuantityRefused(fields: map<string, Json>, long: bool, env: Env)
    ensures SizeEntry(fields, env).ZeroQuantity? ==> Enter(fields, long, env) == Outcome(false, [])
    ensures SizeEntry(fields, env).SizingFailed? ==> Enter(fields, long, env) == Outcome(false, [Notify(TradeFailed)])
  {
  }

  /** Every order of an entry is either the market entry itself, on the
      BUY side exactly for OPEN_LONG, or a reduce-only bracket order on the
      opposite side for the same quantity and symbol. */
  lemma EntryOrdersMirror(fields: map<string, Json>, long: bool, env: Env)
    ensures var s := SizeEntry(fields, env);
      var r := Enter(fields, long, env);
      forall k :: 0 <= k < |r.effects| && r.effects[k].PlaceOrder? ==>
        && s.Sized?
        && r.effects[k].order.symbol == s.symbol
        && r.effects[k].order.quantity == s.quantity
        && (!r.effects[k].order.reduceOnly ==> r.effects[k].order == EntryOrder(s, long))
        && (r.effects[k].order.reduceOnly ==> r.effects[k].order.side == Opposite(EntryOrder(s, long).side))
        && (EntryOrder(s, long).side == Buy <==> long)
  {
    var s := SizeEntry(fields, env);
    if !s.Sized? {
      return;
    }
    assert Enter(fields, long, env) ==
      Place(s, long, Get(fields, "take_profit", JNull), Get(fields, "stop_loss", JNull), env);
  }

  /** The action decides the sides: an OPEN_LONG decision enters on BUY and
      an OPEN_SHORT one on SELL, and its reduce-only orders take the other
      side. */
  lemma EntrySideFollowsAction(fields: map<string, Json>, env: Env)
    ensures var action := Get(fields, "action", JStr("HOLD"));
      var r := ExecuteTrade(JObj(fields), env);
      forall k :: 0 <= k < |r.effects| && r.effects[k].PlaceOrder? ==>
        && (action == JStr("OPEN_LONG") ==> (r.effects[k].order.side == Buy <==> !r.effects[k].order.reduceOnly))
        && (action == JStr("OPEN_SHORT") ==> (r.effects[k].order.side == Sell <==> !r.effects[k].order.reduceOnly))
  {
    var a := Classify(fields);
    if a == OpenLong {
      EntryOrdersMirror(fields, true, env);
    } else if a == OpenShort {
      EntryOrdersMirror(fields, false, env);
    }
  }

  /** Reduce-only orders appear in an entry only when both take_profit and
      stop_loss are truthy. */
  lemma BracketNeedsBothTargets(fields: map<string, Json>, long: bool, env: Env)
    requires !(Truthy(Get(fields, "take_profit", JNull)) && Truthy(Get(fields, "stop_loss", JNull)))
    ensures var r := Enter(fields, long, env);
      forall k :: 0 <= k < |r.effects| && r.effects[k].PlaceOrder? ==> !r.effects[k].order.reduceOnly
  {
    var s := SizeEntry(fields, env);
    if s.Sized? {
      assert Enter(fields, long, env) ==
        Place(s, long, Get(fields, "take_profit", JNull), Get(fields, "stop_loss", JNull), env);
    }
  }

  /** The complete entry: when every request is accepted and both targets
      are non-zero numbers, the trace is leverage change, market entry,
      take-profit, stop-loss and the opened notification, and the result is
      True. */
  lemma FullEntry(fields: map<string, Json>, long: bool, env: Env, tp: real, sl: real)
    requires Get(fields, "take_profit", JNull) == JNum(tp) && tp != 0.0
    requires Get(fields, "stop_loss", JNull) == JNum(sl) && sl != 0.0
    requires env.rejected == {}
    ensures var s := SizeEntry(fields, env);
      var closing := if long then Sell else Buy;
      s.Sized? ==> Enter(fields, long, env) == Outcome(true, [
        ChangeLeverage(s.symbol, s.leverage),
        PlaceOrder(EntryOrder(s, long)),
        PlaceOrder(Order(s.symbol, closing, TakeProfitMarket(RoundPrice(s.symbol, tp)), s.quantity, true)),
        PlaceOrder(Order(s.symbol, closing, StopMarket(RoundPrice(s.symbol, sl)), s.quantity, true)),
        Notify(Opened)])
  {
  }

  /** An entry without a take_profit: the market order has already been
      sent when formatting the notification raises, so the position is open
      with no bracket and the result is False. */
  lemma EntryWithoutTargetFails(fields: map<string, Json>, long: bool, env: Env)
    requires "take_profit" !in fields
    requires env.rejected == {}
    ensures var r := Enter(fields, long, env);
      SizeEntry(fields, env).Sized? ==>
      && !r.ok
      && PlaceOrder(EntryOrder(SizeEntry(fields, env), long)) in r.effects
      && r.effects[|r.effects| - 1] == Notify(TradeFailed)
      && forall k :: 0 <= k < |r.effects| && r.effects[k].PlaceOrder? ==> !r.effects[k].order.reduceOnly
  {
    var s := SizeEntry(fields, env);
    if !s.Sized? {
      return;
    }
    assert Enter(fields, long, env) ==
      Failed([ChangeLeverage(s.symbol, s.leverage), PlaceOrder(EntryOrder(s, long))]);
  }

  /** The leverage in the decision goes to the exchange unchanged, however
      far above the 20x ceiling it is. */
  lemma LeverageNotClamped(fields: map<string, Json>, long: bool, env: Env, leverage: real)
    requires Get(fields, "leverage", JNull) == JNum(leverage)
    ensures SizeEntry(fields, env).Sized? ==> Enter(fields, long, env).effects[0] == ChangeLeverage(SizeEntry(fields, env).symbol, leverage)
  {
  }

  /** The decision's confidence plays no part: replacing it, whatever the
      value, leaves the result and the trace unchanged. */
  lemma ConfidenceIgnored(fields: map<string, Json>, confidence: Json, env: Env)
    ensures ExecuteTrade(JObj(fields["confidence" := confidence]), env) == ExecuteTrade(JObj(fields), env)
  {
    var g := fields["confidence" := confidence];
    SameFieldsSameTrade(g, fields, env);
  }

  /** `g` and `f` hold the same fields, except possibly the confidence. */
  ghost predicate AgreeBesideConfidence(g: map<string, Json>, f: map<string, Json>) {
    && (forall key :: key != "confidence" ==> (key in g <==> key in f))
    && (forall key :: key != "confidence" && key in f ==> g[key] == f[key])
  }

  lemma SameGet(g: map<string, Json>, f: map<string, Json>, key: string, d: Json)
    requires AgreeBesideConfidence(g, f) && key != "confidence"
    ensures Get(g, key, d) == Get(f, key, d)
  {
  }

  lemma SameSizing(g: map<string, Json>, f: map<string, Json>, env: Env)
    requires AgreeBesideConfidence(g, f)
    ensures SizeEntry(g, env) == SizeEntry(f, env)
  {
    SameGet(g, f, "symbol", JStr(""));
    SameGet(g, f, "size_percent", JNum(10.0));
    SameGet(g, f, "leverage", JNum(DefaultLeverage as real));
  }

  lemma SameEntry(g: map<string, Json>, f: map<string, Json>, long: bool, env: Env)
    requires AgreeBesideConfidence(g, f)
    ensures Enter(g, long, env) == Enter(f, long, env)
  {
    SameSizing(g, f, env);
    SameGet(g, f, "take_profit", JNull);
    SameGet(g, f, "stop_loss", JNull);
  }

  lemma SameClose(g: map<string, Json>, f: map<string, Json>, env: Env)
    requires AgreeBesideConfidence(g, f)
    ensures ClosePosition(g, env) == ClosePosition(f, env)
  {
    SameGet(g, f, "symbol", JStr(""));
  }

  /** Two decisions that agree on every field but the confidence have the
      same result and trace. */
  lemma SameFieldsSameTrade(g: map<string, Json>, f: map<string, Json>, env: Env)
    requires AgreeBesideConfidence(g, f)
    ensures ExecuteTrade(JObj(g), env) == ExecuteTrade(JObj(f), env)
  {
    SameGet(g, f, "action", JStr("HOLD"));
    var action := Classify(f);
    assert Classify(g) == action;
    if action == OpenLong {
      SameEntry(g, f, true, env);
      assert ExecuteTrade(JObj(g), env) == Enter(g, true, env);
    } else if action == OpenShort {
      SameEntry(g, f, false, env);
      assert ExecuteTrade(JObj(g), env) == Enter(g, false, env);
    } else if action == Close {
      SameClose(g, f, env);
      assert ExecuteTrade(JObj(g), env) == ClosePosition(g, env);
    }
  }

  /** CLOSE on a symbol the exchange reports: with no non-zero amount
      nothing is sent and the result is False; otherwise one reduce-only
      market order exactly offsets the first non-zero amount, and the result
      is True exactly when the exchange accepts it. */
  lemma CloseOffsetsFirstOpen(fields: map<string, Json>, env: Env, symbol: string)
    requires Get(fields, "symbol", JStr("")) == JStr(symbol) && symbol in env.positions
    ensures var amounts := env.positions[symbol];
      var r := ClosePosition(fields, env);
      && ((forall j :: 0 <= j < |amounts| ==> amounts[j] == 0.0) ==> r == Outcome(false, []))
      && forall i :: 0 <= i < |amounts| && amounts[i] != 0.0 && (forall j :: 0 <= j < i ==> amounts[j] == 0.0) ==>
           && |r.effects| >= 1
           && r.effects[0].PlaceOrder?
           && r.effects[0].order.symbol == symbol
           && r.effects[0].order.orderType == Market
           && r.effects[0].order.reduceOnly
           && (r.effects[0].order.side == Sell <==> amounts[i] > 0.0)
           && amounts[i] + SignedQuantity(r.effects[0].order) == 0.0
           && (r.ok <==> Accepts(env, r.effects[0]))
  {
    var amounts := env.positions[symbol];
    match FirstOpen(amounts)
    case None =>
    case Some(f) =>
      forall i | 0 <= i < |amounts| && amounts[i] != 0.0 && (forall j :: 0 <= j < i ==> amounts[j] == 0.0)
        ensures i == f
      {
        FirstOpenIsFirst(amounts, i);
      }
  }

  /** A CLOSE that sends an order had a non-zero position to close. */
  lemma CloseOnlyIfOpen(fields: map<string, Json>, env: Env)
    requires !NoOrders(ClosePosition(fields, env).effects)
    ensures var symbol := Get(fields, "symbol", JStr(""));
      symbol.JStr? && symbol.s in env.positions &&
      exists j :: 0 <= j < |env.positions[symbol.s]| && env.positions[symbol.s][j] != 0.0
  {
    var symbol := Get(fields, "symbol", JStr(""));
    var i := FirstOpen(env.positions[symbol.s]);
    assert i.Some?;
  }

  /** The first non-zero index is the one `FirstOpen` finds. */
  lemma {:induction false} FirstOpenIsFirst(amounts: seq<real>, i: nat)
    requires i < |amounts| && amounts[i] != 0.0
    requires forall j :: 0 <= j < i ==> amounts[j] == 0.0
    ensures FirstOpen(amounts) == Some(i)
  {
    if i > 0 {
      assert amounts[0] == 0.0;
      FirstOpenIsFirst(amounts[1..], i - 1);
    }
  }
}

=== FILE: json.dfy ===
/** Values produced by Python's JSON decoder, and the few Python operations
    the bot applies to them: truthiness, dict.get and numeric coercion. */
module Json {
  import opened Wrappers

  /** None, bool, int/float, str, list and dict as decoded from a reply. */
  datatype Json =
    | JNull
    | JBool(b: bool)
    | JNum(n: real)
    | JStr(s: string)
    | JArr(items: seq<Json>)
    | JObj(fields: map<string, Json>)

  /** Python's truth value of a decoded value. */
  predicate Truthy(j: Json) {
    match j
    case JNull => false
    case JBool(b) => b
    case JNum(n) => n != 0.0
    case JStr(s) => s != ""
    case JArr(items) => items != []
    case JObj(fields) => fields != map[]
  }

  /** `dict.get(key, default)`. */
  function Get(fields: map<string, Json>, key: string, default: Json): Json {
    if key in fields then fields[key] else default
  }

  /** The number Python arithmetic, `round` and the `,.2f` format see in a
      value (bool is a subclass of int); None when they raise an error. */
  function AsNumber(j: Json): Option<real> {
    match j
    case JNum(n) => Some(n)
    case JBool(b) => Some(if b then 1.0 else 0.0)
    case _ => None
  }
}

=== FILE: modes.dfy ===
/** The per-mode risk configuration table (prompts.py:137-186). The prompt
    texts are opaque and stand here as one token per template. */
module Modes {
  import opened Config

  datatype Template = BaselinePrompt | MonkModePrompt | MaxLeveragePrompt | SituationalPrompt

  datatype ModeConfig = ModeConfig(
    prompt: Template,
    maxLeverage: nat,
    defaultLeverage: nat,
    cashBuffer: real,
    maxPositions: nat,
    minConfidence: real,
    description: string)

  const ModeConfigs: map<string, ModeConfig> := map[
    "baseline" := ModeConfig(BaselinePrompt, 20, 10, 0.30, 6, 0.6, "Modo estándar Alpha Arena"),
    "monk_mode" := ModeConfig(MonkModePrompt, 10, 5, 0.40, 3, 0.80, "Conservador - Preservación de capital"),
    "max_leverage" := ModeConfig(MaxLeveragePrompt, 20, 20, 0.20, 4, 0.65, "Agresivo - Solo expertos"),
    "situational" := ModeConfig(SituationalPrompt, 20, 15, 0.25, 5, 0.65, "Competitivo - Ajusta según ranking")
  ]

  /** The ranges every mode keeps: default leverage within the ceiling, a
      cash buffer strictly between none and all, a confidence floor in
      (0, 1], and room for at least one position. */
  predicate Sane(c: ModeConfig) {
    && 0 < c.defaultLeverage <= c.maxLeverage
    && 0.0 < c.cashBuffer < 1.0
    && 0.0 < c.minConfidence <= 1.0
    && c.maxPositions > 0
  }

  /** `get_mode_config`: the table entry of a known mode, the baseline entry
      for any other name; the result always keeps the ranges of `Sane`. */
  function GetModeConfig(mode: string): (c: ModeConfig)
    ensures Sane(c)
    ensures mode in ModeConfigs ==> c == ModeConfigs[mode]
    ensures mode !in ModeConfigs ==> c == ModeConfigs["baseline"]
    ensures mode !in {"baseline", "monk_mode", "max_leverage", "situational"} ==> c.prompt == BaselinePrompt
  {
    if mode in ModeConfigs then ModeConfigs[mode] else ModeConfigs["baseline"]
  }

  /** `get_system_prompt`: the prompt template of the mode, the baseline
      template for an unknown name. Each known mode has its own template. */
  function SystemPrompt(mode: string): (t: Template)
    ensures t == BaselinePrompt <==> (mode == "baseline" || mode !in ModeConfigs)
    ensures mode == "monk_mode" <==> t == MonkModePrompt
    ensures mode == "max_leverage" <==> t == MaxLeveragePrompt
    ensures mode == "situational" <==> t == SituationalPrompt
  {
    GetModeConfig(mode).prompt
  }

  /** The baseline mode carries the same numbers as the bot's own constants:
      20x ceiling, 10x default, 30% buffer, six positions. */
  lemma BaselineMatchesBot()
    ensures GetModeConfig("baseline").maxLeverage == MaxLeverage
    ensures GetModeConfig("baseline").defaultLeverage == DefaultLeverage
    ensures GetModeConfig("baseline").cashBuffer == CashBufferPercent
    ensures GetModeConfig("baseline").maxPositions == MaxPositions
  {
  }
}

=== FILE: orders.dfy ===
/** The requests the bot sends outward, recorded as an effects trace instead
    of being sent: leverage changes and orders to the exchange, and operator
    notifications. */
module Orders {

  datatype Side = Buy | Sell

  function Opposite(s: Side): Side {
    if s == Buy then Sell else Buy
  }

  datatype OrderType =
    | Market
    | TakeProfitMarket(stopPrice: real)
    | StopMarket(stopPrice: real)

  datatype Order = Order(symbol: string, side: Side, orderType: OrderType, quantity: real, reduceOnly: bool)

  /** The change an order makes to a signed position amount. */
  function SignedQuantity(o: Order): real {
    if o.side == Buy then o.quantity else -o.quantity
  }

  /** Which operator message was sent; the message text is not modelled. */
  datatype Note = Opened | Closed | TradeFailed | DailyLimitReached

  datatype Effect =
    | ChangeLeverage(symbol: string, leverage: real)
    | PlaceOrder(order: Order)
    | Notify(note: Note)

  /** No order of any kind is in the trace. */
  predicate NoOrders(effects: seq<Effect>) {
    forall k :: 0 <= k < |effects| ==> !effects[k].PlaceOrder?
  }

  /** A joined trace sends no order exactly when neither part does. */
  lemma NoOrdersAppend(a: seq<Effect>, b: seq<Effect>)
    ensures NoOrders(a + b) <==> NoOrders(a) && NoOrders(b)
  {
    assert forall k :: 0 <= k < |a| ==> (a + b)[k] == a[k];
    assert forall k :: 0 <= k < |b| ==> (a + b)[|a| + k] == b[k];
  }
}

=== FILE: prompt.dfy ===
/** The structure of the prompt sent to the language model (main.py:172-245).
    Numbers keep their values; the text around them and the fixed rule block
    are not modelled. */
module Prompt {
  import opened Wrappers
  import opened Config
  import opened Account
  import opened Rounding

  /** Latest unrounded values of one pair: the ticker price, the last RSI,
      MACD, signal and averages of the candle series, and the summed
      volume. */
  datatype Readings = Readings(price: real, rsi: real, macd: real, macdSignal: real, ema20: real, ema50: real, volume24h: real)

  datatype Trend = Bullish | Bearish

  /** The record the market-data step stores for one pair: rounded values
      and the trend label. */
  datatype Indicators = Indicators(price: real, rsi: real, macd: real, macdSignal: real, ema20: real, ema50: real, volume24h: real, trend: Trend)

  /** main.py:120-128: RSI, averages and volume to 2 places, MACD and signal
      to 4, the price as is, and the trend decided on the unrounded
      averages. */
  function Summarize(r: Readings): (d: Indicators)
    ensures d.trend == Bullish <==> r.ema20 > r.ema50
    ensures d.price == r.price
    ensures r.ema20 - HalfStep(2) <= d.ema20 <= r.ema20 + HalfStep(2)
    ensures r.ema50 - HalfStep(2) <= d.ema50 <= r.ema50 + HalfStep(2)
    ensures r.rsi - HalfStep(2) <= d.rsi <= r.rsi + HalfStep(2)
    ensures r.macd - HalfStep(4) <= d.macd <= r.macd + HalfStep(4)
    ensures r.macdSignal - HalfStep(4) <= d.macdSignal <= r.macdSignal + HalfStep(4)
    ensures r.volume24h - HalfStep(2) <= d.volume24h <= r.volume24h + HalfStep(2)
  {
    RoundToError(r.ema20, 2);
    RoundToError(r.ema50, 2);
    RoundToError(r.rsi, 2);
    RoundToError(r.macd, 4);
    RoundToError(r.macdSignal, 4);
    RoundToError(r.volume24h, 2);
    Indicators(r.price, RoundTo(r.rsi, 2), RoundTo(r.macd, 4), RoundTo(r.macdSignal, 4),
      RoundTo(r.ema20, 2), RoundTo(r.ema50, 2), RoundTo(r.volume24h, 2),
      if r.ema20 > r.ema50 then Bullish else Bearish)
  }

  /** The rendered trend can disagree with the rendered averages: fast and
      slow averages of 100.004 and 100.001 both show as 100.00, yet the pair
      is labelled bullish. */
  lemma TrendBeforeRounding()
    ensures var d := Summarize(Readings(100.0, 50.0, 0.0, 0.0, 100.004, 100.001, 0.0));
      d.ema20 == d.ema50 == 100.0 && d.trend == Bullish
  {
    assert Pow10(2) == 100;
    assert Scaled(100.004, 2) == 10000.4;
    assert Scaled(100.001, 2) == 10000.1;
  }

  /** Market data in pair order, one stored record per pair; None marks a
      pair whose data could not be fetched. */
  type MarketData = seq<(string, Option<Indicators>)>

  datatype MarketBlock = MarketBlock(pair: string, data: Indicators)

  datatype AccountBlock = AccountBlock(balance: real, unrealizedPnl: real, equity: real, available: real, positionCount: nat, positionCap: nat)

  datatype PositionsBlock = NoPositions | PositionLines(lines: seq<Position>)

  datatype PromptSkeleton = PromptSkeleton(market: seq<MarketBlock>, account: AccountBlock, positions: PositionsBlock)

  /** One block per pair with data, in pair order. */
  function MarketSection(market: MarketData): (blocks: seq<MarketBlock>)
    ensures |blocks| <= |market|
    ensures forall i :: 0 <= i < |blocks| ==> (blocks[i].pair, Some(blocks[i].data)) in market
  {
    if market == [] then []
    else
      var rest := MarketSection(market[1..]);
      match market[0].1
      case None => rest
      case Some(d) => [MarketBlock(market[0].0, d)] + rest
  }

  /** A pair is rendered exactly when its data is available; unavailable
      pairs are left out rather than rendered as zeros. */
  lemma {:induction false} MarketSectionExactly(market: MarketData)
    ensures forall pair, d :: (pair, Some(d)) in market ==> MarketBlock(pair, d) in MarketSection(market)
    ensures forall b :: b in MarketSection(market) ==> (b.pair, Some(b.data)) in market
    ensures forall pair :: (pair, None) in market && (forall d :: (pair, Some(d)) !in market) ==>
      forall b :: b in MarketSection(market) ==> b.pair != pair
  {
    if market != [] {
      MarketSectionExactly(market[1..]);
      assert forall e :: e in market ==> e == market[0] || e in market[1..];
    }
  }

  /** The section keeps pair order and renders each available pair once:
      the section of two runs of pairs is the first's followed by the
      second's. */
  lemma {:induction false} MarketSectionAppend(a: MarketData, b: MarketData)
    ensures MarketSection(a + b) == MarketSection(a) + MarketSection(b)
  {
    if a != [] {
      assert (a + b)[1..] == a[1..] + b;
      MarketSectionAppend(a[1..], b);
    } else {
      assert a + b == b;
    }
  }

  /** A single pair gives its block when it has data, and nothing
      otherwise. */
  lemma MarketSectionSingle(pair: string, d: Option<Indicators>)
    ensures MarketSection([(pair, d)]) == if d.Some? then [MarketBlock(pair, d.value)] else []
  {
    assert [(pair, d)][1..] == [];
  }

  /** With no pair's data available the market section is empty. */
  lemma {:induction false} NoDataNoBlocks(market: MarketData)
    requires forall i :: 0 <= i < |market| ==> market[i].1.None?
    ensures MarketSection(market) == []
  {
    if market != [] {
      NoDataNoBlocks(market[1..]);
    }
  }

  /** `build_prompt`: the market section, the account block with the
      position count out of the fixed cap of six, and either one line per
      open position or the single "None" line. */
  function BuildPrompt(market: MarketData, account: Snapshot): (p: PromptSkeleton)
    ensures p.positions == NoPositions <==> account.openPositions == []
    ensures p.positions.PositionLines? ==> p.positions.lines == account.openPositions
    ensures p.account.positionCount == account.positionCount && p.account.positionCap == MaxPositions
    ensures p.account.equity == account.equity && p.account.available == account.available
    ensures p.account.balance == account.balance && p.account.unrealizedPnl == account.unrealizedPnl
    ensures p.market == MarketSection(market)
  {
    PromptSkeleton(
      MarketSection(market),
      AccountBlock(account.balance, account.unrealizedPnl, account.equity, account.available, account.positionCount, 6),
      if account.openPositions != [] then PositionLines(account.openPositions) else NoPositions)
  }
}

=== FILE: reply.dfy ===
/** Cleaning of the language model's reply before JSON decoding
    (main.py:274-281): trim, drop a leading "```json" or "```" fence and a
    trailing "```" fence, trim again. */
module Reply {

  /** Python's `str.isspace` for one character. */
  predicate IsSpace(c: char) {
    var n := c as int;
    || (0x09 <= n <= 0x0D) || (0x1C <= n <= 0x20)
    || n == 0x85 || n == 0xA0 || n == 0x1680 || (0x2000 <= n <= 0x200A)
    || n == 0x2028 || n == 0x2029 || n == 0x202F || n == 0x205F || n == 0x3000
  }

  predicate AllSpace(s: string) {
    forall i :: 0 <= i < |s| ==> IsSpace(s[i])
  }

  /** Neither end of `s` is whitespace. */
  predicate Trimmed(s: string) {
    s == [] || (!IsSpace(s[0]) && !IsSpace(s[|s| - 1]))
  }

  predicate StartsWith(s: string, prefix: string) {
    |prefix| <= |s| && s[..|prefix|] == prefix
  }

  predicate EndsWith(s: string, suffix: string) {
    |suffix| <= |s| && s[|s| - |suffix|..] == suffix
  }

  /** The first index at or after `i` that is not whitespace, or `|s|`. */
  function SkipSpace(s: string, i: nat): (n: nat)
    requires i <= |s|
    ensures i <= n <= |s|
    ensures forall k :: i <= k < n ==> IsSpace(s[k])
    ensures n == |s| || !IsSpace(s[n])
    decreases |s| - i
  {
    if i < |s| && IsSpace(s[i]) then SkipSpace(s, i + 1) else i
  }

  /** The end of `s[lo..j]` once its trailing whitespace is dropped. */
  function SkipSpaceBack(s: string, lo: nat, j: nat): (e: nat)
    requires lo <= j <= |s|
    ensures lo <= e <= j
    ensures forall k :: e <= k < j ==> IsSpace(s[k])
    ensures e == lo || !IsSpace(s[e - 1])
    decreases j
  {
    if j > lo && IsSpace(s[j - 1]) then SkipSpaceBack(s, lo, j - 1) else j
  }

  /** Number of leading whitespace characters `str.strip` removes. */
  function Lead(s: string): nat
    ensures Lead(s) <= |s|
  {
    SkipSpace(s, 0)
  }

  /** `str.strip()`: `s` is the result framed by whitespace on both sides. */
  function Strip(s: string): (r: string)
    ensures Trimmed(r)
    ensures Lead(s) + |r| <= |s| && r == s[Lead(s)..Lead(s) + |r|]
    ensures AllSpace(s[..Lead(s)]) && AllSpace(s[Lead(s) + |r|..])
  {
    var start := Lead(s);
    var end := SkipSpaceBack(s, start, |s|);
    s[start..end]
  }

  /** `SkipSpace` stops exactly at the first non-whitespace character. */
  lemma {:induction false} SkipSpaceStops(s: string, i: nat, n: nat)
    requires i <= n <= |s|
    requires forall k :: i <= k < n ==> IsSpace(s[k])
    requires n == |s| || !IsSpace(s[n])
    ensures SkipSpace(s, i) == n
    decreases n - i
  {
    if i < n {
      SkipSpaceStops(s, i + 1, n);
    }
  }

  /** `SkipSpaceBack` stops exactly after the last non-whitespace character. */
  lemma {:induction false} SkipSpaceBackStops(s: string, lo: nat, j: nat, e: nat)
    requires lo <= e <= j <= |s|
    requires forall k :: e <= k < j ==> IsSpace(s[k])
    requires e == lo || !IsSpace(s[e - 1])
    ensures SkipSpaceBack(s, lo, j) == e
    decreases j - e
  {
    if e < j {
      SkipSpaceBackStops(s, lo, j - 1, e);
    }
  }

  /** Stripping is blind to whitespace framing: `x` surrounded by whitespace
      strips to `x` itself when `x` is already trimmed. */
  lemma StripPadded(lead: string, x: string, trail: string)
    requires AllSpace(lead) && AllSpace(trail) && Trimmed(x)
    ensures Strip(lead + x + trail) == x
  {
    var t := lead + x + trail;
    if x == [] {
      SkipSpaceStops(t, 0, |t|);
      SkipSpaceBackStops(t, |t|, |t|, |t|);
    } else {
      assert t[|lead|] == x[0];
      SkipSpaceStops(t, 0, |lead|);
      assert t[|lead| + |x| - 1] == x[|x| - 1];
      SkipSpaceBackStops(t, |lead|, |t|, |lead| + |x|);
      assert t[|lead|..|lead| + |x|] == x;
    }
  }

  /** A text the decoder can take as an object or an array: it opens with a
      brace or bracket and closes with one. */
  predicate JsonShaped(t: string) {
    && |t| >= 2
    && (t[0] == '{' || t[0] == '[')
    && (t[|t| - 1] == '}' || t[|t| - 1] == ']')
  }

  /** Drops a leading "```json" tag, then a leading "```" fence. */
  function DropOpeningFence(c: string): (r: string)
    ensures |r| <= |c| && r == c[|c| - |r|..]
  {
    var c1 := if StartsWith(c, "```json") then c[7..] else c;
    if StartsWith(c1, "```") then c1[3..] else c1
  }

  /** Drops a trailing "```" fence. */
  function DropClosingFence(c: string): (r: string)
    ensures |r| <= |c| && r == c[..|r|]
  {
    if EndsWith(c, "```") then c[..|c| - 3] else c
  }

  /** The cleaning applied to the reply before `json.loads`. */
  function CleanReply(content: string): (r: string)
    ensures Trimmed(r)
    ensures |r| <= |content|
  {
    Strip(DropClosingFence(DropOpeningFence(Strip(content))))
  }

  /** The first character of a text whose stripped form is JSON-shaped is
      whitespace or the opening brace or bracket, never a fence or the "j"
      of a "json" tag. */
  lemma FirstCharOfPayload(inner: string)
    requires JsonShaped(Strip(inner))
    ensures |inner| > 0 && inner[0] != '`' && inner[0] != 'j'
  {
    var t := Strip(inner);
    if Lead(inner) == 0 {
      assert inner[0] == t[0];
    } else {
      assert inner[..Lead(inner)][0] == inner[0];
    }
  }

  lemma OpeningJsonFence(inner: string)
    requires |inner| > 0 && inner[0] != '`'
    ensures DropOpeningFence("```json" + inner + "```") == inner + "```"
  {
    var c := "```json" + inner + "```";
    assert StartsWith(c, "```json");
    assert c[7..] == inner + "```";
    assert (inner + "```")[0] == inner[0];
  }

  lemma OpeningPlainFence(inner: string)
    requires |inner| > 0 && inner[0] != '`' && inner[0] != 'j'
    ensures DropOpeningFence("```" + inner + "```") == inner + "```"
  {
    var c := "```" + inner + "```";
    assert c[3] == inner[0];
    assert !StartsWith(c, "```json");
    assert StartsWith(c, "```");
    assert c[3..] == inner + "```";
  }

  lemma ClosingFence(inner: string)
    ensures DropClosingFence(inner + "```") == inner
  {
    var c := inner + "```";
    assert c[|c| - 3..] == "```";
    assert c[..|c| - 3] == inner;
  }

  /** An unfenced JSON reply is only trimmed. */
  lemma CleanUnfenced(content: string)
    requires JsonShaped(Strip(content))
    ensures CleanReply(content) == Strip(content)
  {
    var c0 := Strip(content);
    assert !StartsWith(c0, "```json") && !StartsWith(c0, "```") by {
      assert c0[0] != '`';
    }
    assert DropOpeningFence(c0) == c0;
    assert !EndsWith(c0, "```") by {
      assert c0[|c0| - 1] != '`';
    }
    assert DropClosingFence(c0) == c0;
    StripPadded([], c0, []);
    assert [] + c0 + [] == c0;
  }

  /** A reply fenced as "```json ... ```", with any whitespace around the
      fences, cleans to the trimmed payload. */
  lemma CleanJsonFenced(lead: string, inner: string, trail: string)
    requires AllSpace(lead) && AllSpace(trail)
    requires JsonShaped(Strip(inner))
    ensures CleanReply(lead + "```json" + inner + "```" + trail) == Strip(inner)
  {
    var fenced := "```json" + inner + "```";
    assert lead + "```json" + inner + "```" + trail == lead + fenced + trail;
    assert Trimmed(fenced);
    StripPadded(lead, fenced, trail);
    FirstCharOfPayload(inner);
    OpeningJsonFence(inner);
    ClosingFence(inner);
  }

  /** A reply fenced as "``` ... ```" cleans to the trimmed payload too. */
  lemma CleanPlainFenced(lead: string, inner: string, trail: string)
    requires AllSpace(lead) && AllSpace(trail)
    requires JsonShaped(Strip(inner))
    ensures CleanReply(lead + "```" + inner + "```" + trail) == Strip(inner)
  {
    var fenced := "```" + inner + "```";
    assert lead + "```" + inner + "```" + trail == lead + fenced + trail;
    assert Trimmed(fenced);
    StripPadded(lead, fenced, trail);
    FirstCharOfPayload(inner);
    OpeningPlainFence(inner);
    ClosingFence(inner);
  }

  /** Fencing does not change what the decoder is given: a fenced JSON
      payload cleans to the same text as the bare payload. */
  lemma FencedLikeUnfenced(lead: string, inner: string, trail: string)
    requires AllSpace(lead) && AllSpace(trail)
    requires JsonShaped(Strip(inner))
    ensures CleanReply(lead + "```json" + inner + "```" + trail) == CleanReply(inner)
    ensures CleanReply(lead + "```" + inner + "```" + trail) == CleanReply(inner)
  {
    CleanJsonFenced(lead, inner, trail);
    CleanPlainFenced(lead, inner, trail);
    CleanUnfenced(inner);
  }
}

=== FILE: rounding.dfy ===
/** Python's `round(x, n)` on an idealised real: the nearest multiple of
    10^-n, ties going to the even multiple. */
module Rounding {

  function Pow10(n: nat): (p: nat)
    ensures p >= 1
  {
    if n == 0 then 1 else 10 * Pow10(n - 1)
  }

  /** Nearest integer to `s`, a tie going to the even neighbour. */
  function RoundHalfEven(s: real): (k: int)
    ensures s - 0.5 <= k as real <= s + 0.5
    ensures (k as real == s - 0.5 || k as real == s + 0.5) ==> k % 2 == 0
  {
    var f := s.Floor;
    var frac := s - f as real;
    if frac < 0.5 then f
    else if frac > 0.5 then f + 1
    else if f % 2 == 0 then f
    else f + 1
  }

  /** `x` measured in steps of 10^-digits. */
  function Scaled(x: real, digits: nat): real {
    x * (Pow10(digits) as real)
  }

  /** `round(x, digits)`. */
  function RoundTo(x: real, digits: nat): real {
    RoundHalfEven(Scaled(x, digits)) as real / (Pow10(digits) as real)
  }

  /** Half of the step 10^-digits: the largest error rounding can make. */
  function HalfStep(digits: nat): (h: real)
    ensures h > 0.0
  {
    0.5 / (Pow10(digits) as real)
  }

  lemma DivMonotone(a: real, b: real, p: real)
    requires p > 0.0 && a <= b
    ensures a / p <= b / p
  {
  }

  lemma DivAdd(a: real, b: real, p: real)
    requires p > 0.0
    ensures (a + b) / p == a / p + b / p
  {
  }

  lemma MulDivCancel(x: real, p: real)
    requires p > 0.0
    ensures (x * p) / p == x
  {
  }

  lemma DivPositive(a: real, p: real)
    requires p > 0.0
    ensures a > 0.0 <==> a / p > 0.0
  {
  }

  lemma BelowQuotient(x: real, c: real, p: real)
    requires p > 0.0
    ensures x <= c / p <==> x * p <= c
  {
    MulDivCancel(x, p);
    if x <= c / p {
      DivMonotone(x * p, c, p);
    } else {
      DivMonotone(c, x * p, p);
    }
  }

  /** `x` is a whole number of steps of 10^-digits. */
  predicate OnGrid(x: real, digits: nat) {
    Scaled(x, digits) == Scaled(x, digits).Floor as real
  }

  lemma DivMulCancel(x: real, p: real)
    requires p > 0.0
    ensures (x / p) * p == x
  {
  }

  /** Rounding lands on the grid: measured in steps, the result is the
      rounded step count. */
  lemma RoundToOnGrid(x: real, digits: nat)
    ensures Scaled(RoundTo(x, digits), digits) == RoundHalfEven(Scaled(x, digits)) as real
    ensures OnGrid(RoundTo(x, digits), digits)
  {
    var p := Pow10(digits) as real;
    var k := RoundHalfEven(Scaled(x, digits));
    assert RoundTo(x, digits) == k as real / p;
    DivMulCancel(k as real, p);
    assert (k as real).Floor == k;
  }

  /** Rounding moves a value by at most half a step. */
  lemma RoundToError(x: real, digits: nat)
    ensures x - HalfStep(digits) <= RoundTo(x, digits) <= x + HalfStep(digits)
  {
    var p := Pow10(digits) as real;
    var s := Scaled(x, digits);
    var k := RoundHalfEven(s) as real;
    assert RoundTo(x, digits) == k / p;
    assert HalfStep(digits) == 0.5 / p;
    assert s - 0.5 <= k <= s + 0.5;
    DivMonotone(k, s + 0.5, p);
    DivMonotone(s + -0.5, k, p);
    DivAdd(s, 0.5, p);
    DivAdd(s, -0.5, p);
    assert -0.5 / p == -(0.5 / p);
    MulDivCancel(x, p);
  }

  /** A value rounds to zero or below exactly when it is at most half a
      step: this is what makes a tiny entry quantity vanish. */
  lemma RoundToNonPositive(x: real, digits: nat)
    ensures RoundTo(x, digits) <= 0.0 <==> x <= HalfStep(digits)
  {
    var s := Scaled(x, digits);
    RoundToSign(x, digits);
    HalfEvenNonPositive(s);
    ScaledAtMostHalf(x, digits);
  }

  lemma RoundToSign(x: real, digits: nat)
    ensures RoundTo(x, digits) <= 0.0 <==> RoundHalfEven(Scaled(x, digits)) <= 0
  {
    var p := Pow10(digits) as real;
    var k := RoundHalfEven(Scaled(x, digits));
    assert RoundTo(x, digits) == k as real / p;
    DivPositive(k as real, p);
  }

  lemma HalfEvenNonPositive(s: real)
    ensures RoundHalfEven(s) <= 0 <==> s <= 0.5
  {
    var k := RoundHalfEven(s);
    if s == 0.5 {
      assert k == 0 || k == 1;
    }
  }

  lemma ScaledAtMostHalf(x: real, digits: nat)
    ensures x <= HalfStep(digits) <==> Scaled(x, digits) <= 0.5
  {
    var p := Pow10(digits) as real;
    assert HalfStep(digits) == 0.5 / p;
    assert Scaled(x, digits) == x * p;
    BelowQuotient(x, 0.5, p);
  }
}

=== FILE: wrappers.dfy ===
/** The optional value used wherever the bot returns None on failure. */
module Wrappers {

  datatype Option<+T> = None | Some(value: T)
}
